=== FILE: README.md ===
# Blinkstick status light, modelled in Dafny

The Galicaster Blinkstick plugin turns the recorder's status into a colour
on the eight LEDs of a USB Blinkstick. It flashes while recording is
paused. It survives a device that is unplugged or that fails on some writes.
This project models the plugin's controller, `BlinkstickPlugin`, as pure
functions over an immutable record of the plugin's four mutable fields:

- `bs`: whether a device handle is held.
- `error`: a write raised something other than a USB error since the last
  successful write.
- `flash`: the live flash timer's id, if any.
- `led`: the colour last sent to the device.

Every handler takes the plugin and the hardware's behaviour and returns the
new plugin plus a trace of effects. The effects are LED writes (with their
outcomes), error logs, USB link resets, and timers scheduled or removed.

- `types.dfy` (`Types`): statuses, colours, configuration and its defaults,
  device outcomes, effects, the plugin record.
- `trace.dfy` (`Trace`): views of a trace (its writes, error logs,
  successful writes, timer operations), and `Replay`, which checks a trace
  against the log-once rule. Under that rule, a successful write lowers the
  error flag, and a fault other than a USB error raises it. A fault that
  meets the flag down must be followed at once by exactly one error log,
  and no log may appear anywhere else.
- `device.dfy` (`Device`): `get_blinkstick` and `set_color`, including the
  per-LED loop. The loop appears twice: as a recursive function and as the
  counted loop of the source, and the two are proved equal. `Span` is the
  reference list of writes for a run of consecutive LEDs, and the loop's
  writes are proved to be such a run.
- `controller.dfy` (`Controller`): `set_status`, `_handle_timer`,
  `_handle_upcoming`, `_handle_status_change`, `_handle_quit`, the flash
  timer's callback, and construction.
- `scheduler.dfy` (`Scheduler`): the plugin together with GLib's set of
  scheduled timer sources, run one event at a time.
- `scenarios.dfy` (`Scenarios`): the documented behaviour on concrete
  inputs, mostly with the default colours and a device that takes every
  write; one scenario has a USB error on LED 3, with any configuration.

Hardware is an input. `Env.write(i)` is the outcome of writing LED `i`:
`Ok`, `UsbError` or `Other`. `Env.find(k)` is the outcome of the k-th device
lookup during one handler: found, not found, or `find_first` raising, in
which case the USB link is reset when present. A timer id is a positive
number, because GLib never hands out 0. So "flash is truthy" is the same as
"flash is `Some`". Times are whole seconds.

The code and its comments disagree in three places. The model follows the
code each time:

- A USB error on an LED is not retried. The comment says the index is
  decremented, but assigning to the variable of a Python `for` loop does
  not repeat the index. Each LED is attempted at most once, in ascending order.
- Quitting does not cancel a live flash when a device is reachable. It only
  writes the off colour, and the flash toggle still applies to that write.
  With no device reachable, the flash is cleared but its GLib timer is not
  removed (`Scheduler.QuitOrphansTimer`).
- A `Paused` status while already flashing cancels the flash and writes no
  colour. It does not keep the flash going.

One more consequence of the code: after a failed re-acquisition inside the
loop, the handle is `None`. Every later LED then raises an AttributeError,
which lands in the generic exception branch. No device write happens for
those LEDs, and because the error flag is already up, nothing more is logged.

## Model

| member | source | states |
|---|---|---|
| `Device.Acquire` | galicaster_plugin_blinkstick/blinkstick_plugin.py:178-191 | a handle is held exactly when `find_first` finds a device; a raising lookup resets the USB link when that link exists, and yields no handle either way |
| `Device.WriteLoopWrites` | galicaster_plugin_blinkstick/blinkstick_plugin.py:153-161 | the loop writes LEDs i, i+1, … in ascending order, each at most once, with the loop's colour and that LED's outcome; all remaining LEDs are written when the handle survives, none without a handle |
| `Device.WriteOne` | galicaster_plugin_blinkstick/blinkstick_plugin.py:154-170 | one pass: a fault meeting the flag down (a raising write, or the AttributeError of a lost handle) re-acquires the device and raises the flag, the handle becoming what the lookup finds; any other pass keeps the handle and the lookup count; the handle is lost only with the flag up |
| `Device.WriteOneLogs` | galicaster_plugin_blinkstick/blinkstick_plugin.py:162-170 | one pass logs at most once per lowered flag, and logs exactly as many times as it re-acquires |
| `Device.WriteOneRecovery` | galicaster_plugin_blinkstick/blinkstick_plugin.py:162-168 | a fault meeting the flag down is logged exactly once and re-acquires the device; any other pass logs nothing and keeps the handle |
| `Device.WriteOneResets` | galicaster_plugin_blinkstick/blinkstick_plugin.py:164-168 | a pass resets the USB link exactly when a fault meets the flag down and the re-acquisition's `find_first` raises with the link present |
| `Device.WriteOneReplay` | galicaster_plugin_blinkstick/blinkstick_plugin.py:156-170 | the trace of one pass obeys the log-once rule: replayed from its starting flag it is accepted and ends at the flag the pass leaves |
| `Device.WriteLoop` | galicaster_plugin_blinkstick/blinkstick_plugin.py:153-170 | the loop over the remaining LEDs keeps the handle/flag coherence and makes at most one lookup per LED |
| `Device.WriteLoopCoherent` | galicaster_plugin_blinkstick/blinkstick_plugin.py:162-170 | the handle is lost only together with a raised error flag, and a loop pass without a handle writes nothing and changes nothing |
| `Device.WriteLoopOrder` | galicaster_plugin_blinkstick/blinkstick_plugin.py:153-155 | the writes of the loop from LED i are exactly the span of LEDs i, i+1, … for as many LEDs as were written, never more than remain |
| `Device.WriteLoopComplete` | galicaster_plugin_blinkstick/blinkstick_plugin.py:153-161 | when the handle survives the loop, every remaining LED was written |
| `Device.WriteLoopNoTimerOps` | galicaster_plugin_blinkstick/blinkstick_plugin.py:153-170 | the per-LED loop never schedules or removes a timer |
| `Device.WriteLoopLogs` | galicaster_plugin_blinkstick/blinkstick_plugin.py:162-170 | over the loop, error logs plus "flag is down at the end" never exceed "flag was down at the start" plus successful writes, and each log goes with exactly one re-acquisition |
| `Device.WriteLoopLastError` | galicaster_plugin_blinkstick/blinkstick_plugin.py:162-170 | after the loop the error flag is down if the last LED's write succeeded through a live handle, and up if it raised a non-USB exception |
| `Device.WriteLoopReplay` | galicaster_plugin_blinkstick/blinkstick_plugin.py:162-170 | over the whole loop an error is logged right after every fault that meets the flag down and at no other time, so there is exactly one log per fault streak |
| `Device.WriteLoopRecovery` | galicaster_plugin_blinkstick/blinkstick_plugin.py:162-168 | after a fault with the flag down, a re-acquisition that finds a device lets the loop go on writing the next LEDs through it, flag up; one that finds none stops all further writes and leaves the handle lost |
| `Device.WriteLoopKeepsHandle` | galicaster_plugin_blinkstick/blinkstick_plugin.py:156-161 | successes and USB errors never drop the device handle |
| `Device.RunWriteLoop` | galicaster_plugin_blinkstick/blinkstick_plugin.py:153-170 | the counted loop of the source computes the same handle, flag and trace as the recursive loop, and writes LEDs 0, 1, … in order, all eight when the handle survives |
| `Device.SetColor` | galicaster_plugin_blinkstick/blinkstick_plugin.py:140-176 | with no device reachable, the flash is cleared, the handle stays absent and `led` is unchanged; otherwise the flash is kept and `led` becomes the colour actually written (the preview colour when flashing and asked for the colour already shown), even if every write failed; the return value always equals the flash; a first acquisition's link reset comes first in the trace, and with no device reachable it is the whole trace |
| `Device.SetColorWrites` | galicaster_plugin_blinkstick/blinkstick_plugin.py:141-161 | no LED write and a `None` return when no device is reachable; otherwise LEDs 0..7 are written in order with the toggled colour, at most once each, all eight when the handle survives |
| `Device.SetColorNoTimerOps` | galicaster_plugin_blinkstick/blinkstick_plugin.py:140-176 | `set_color` never schedules or removes a timer, even when it clears the flash |
| `Device.SetColorLogs` | galicaster_plugin_blinkstick/blinkstick_plugin.py:162-168 | error logs in one call never exceed successful writes, plus one if the flag was down on entry |
| `Device.SetColorReplay` | galicaster_plugin_blinkstick/blinkstick_plugin.py:140-170 | across calls, `set_color` logs a fault exactly when it meets the flag down, at once, and never otherwise: its trace obeys the log-once rule from the flag it starts with to the flag it leaves |
| `Device.SetColorAllWritten` | galicaster_plugin_blinkstick/blinkstick_plugin.py:153-161 | with a device at hand and no non-USB fault, all eight LEDs are written exactly once in order, a USB error leaving its LED unwritten rather than retried, and the handle is kept |
| `Controller.StatusColor` | galicaster_plugin_blinkstick/blinkstick_plugin.py:131-138 | `Paused` alone has no colour to write (it is shown by flashing); every other status maps to a colour (the colours themselves are pinned by `Controller.HandleStatusChange`) |
| `Controller.SetStatus` | galicaster_plugin_blinkstick/blinkstick_plugin.py:119-138 | afterwards a flash is live exactly when the status is `Paused` and none was live before; starting a flash only schedules a timer with the pause delay; otherwise a live flash is removed first, and a second `Paused` writes nothing; any other status leaves `led` at its colour when the device is reachable |
| `Controller.SetStatusWrites` | galicaster_plugin_blinkstick/blinkstick_plugin.py:126-138 | outside `Paused` the LEDs are written in order with exactly the status's colour (no toggling), and none when no device is reachable |
| `Controller.ResolveStatus` | galicaster_plugin_blinkstick/blinkstick_plugin.py:102-112 | only `Preview` is promoted to `Upcoming`, and exactly when a next recording exists whose start minus now is at most the lookahead (a past start included); `Init` and every other status are kept |
| `Controller.HandleTimer` | galicaster_plugin_blinkstick/blinkstick_plugin.py:98-114 | while a flash is live nothing changes and nothing happens; otherwise a flash is live afterwards exactly when the recorder is paused, and a non-paused recorder's resolved status colour is shown when a device is reachable, while the plugin is left unchanged when none is |
| `Controller.HandleTimerWrites` | galicaster_plugin_blinkstick/blinkstick_plugin.py:98-114 | with no flash live and the recorder not paused, the resync writes LEDs 0..7 in order with exactly the resolved status's colour, all eight when the handle survives, none when no device is reachable |
| `Controller.HandleTimerUpcoming` | galicaster_plugin_blinkstick/blinkstick_plugin.py:102-114 | with no flash live, a previewing recorder shows the upcoming colour when the next recording is within the window and the preview colour otherwise |
| `Controller.HandleUpcoming` | galicaster_plugin_blinkstick/blinkstick_plugin.py:90-92 | the upcoming notice cancels any live flash, removing its timer first, and shows the upcoming colour when a device is reachable |
| `Controller.HandleStatusChange` | galicaster_plugin_blinkstick/blinkstick_plugin.py:94-96 | a status change starts a flash exactly for `Paused` with no flash live, and otherwise shows a non-`Paused` status's colour when a device is reachable: the preview colour for `Init` and `Preview`, the error colour for `Error`, the recording colour for `Recording` |
| `Controller.HandleQuit` | galicaster_plugin_blinkstick/blinkstick_plugin.py:116-117 | quitting touches no timer and keeps a live flash when the device is reachable; it writes the off colour, or the preview colour when flashing with the off colour showing |
| `Controller.Fire` | galicaster_plugin_blinkstick/blinkstick_plugin.py:148-176 | the flash callback asks to run again exactly when flashing with a device reachable; it shows the preview colour when the pause colour is showing and the pause colour otherwise |
| `Controller.FireTwiceAlternates` | galicaster_plugin_blinkstick/blinkstick_plugin.py:148-150 | two firings change the colour and then restore it: the LEDs alternate between the pause and preview colours |
| `Controller.Create` | galicaster_plugin_blinkstick/blinkstick_plugin.py:60-88 | a plugin constructed while the recorder is paused is flashing and has written nothing; any other is not flashing and shows its resolved status's colour once a device is found, or stays as initialised with nothing written |
| `Scheduler.Start` | galicaster_plugin_blinkstick/blinkstick_plugin.py:82-88 | right after construction GLib runs exactly the plugin's flash timer: one timer when paused, none otherwise |
| `Scheduler.SetStatusAgrees` | galicaster_plugin_blinkstick/blinkstick_plugin.py:119-129 | after `set_status`, GLib's scheduled timers are exactly the plugin's flash |
| `Scheduler.FireAgrees` | galicaster_plugin_blinkstick/blinkstick_plugin.py:142-146 | a firing either keeps its timer and the flash, or finds no device, clears the flash and is dropped |
| `Scheduler.QuitAgrees` | galicaster_plugin_blinkstick/blinkstick_plugin.py:116-117 | quitting with a device reachable keeps the flash and its timer in step |
| `Scheduler.NextAgrees` | galicaster_plugin_blinkstick/blinkstick_plugin.py:98-129 | every event, except a quit with no device reachable, keeps GLib's timers equal to the plugin's flash, so at most one flash timer is scheduled |
| `Scheduler.OrphanKeepsRunning` | galicaster_plugin_blinkstick/blinkstick_plugin.py:140-176 | a scheduled timer the plugin no longer tracks stays scheduled after firing while the plugin flashes under another timer, since the callback returns the current flash |
| `Scheduler.RunAgrees` | galicaster_plugin_blinkstick/blinkstick_plugin.py:119-129 | along any run of events whose quits reach the device, at most one flash timer is ever scheduled |
| `Scheduler.QuitOrphansTimer` | galicaster_plugin_blinkstick/blinkstick_plugin.py:142-146 | quitting while flashing with no device found clears the flash but leaves its timer scheduled; a later resync while paused schedules a second timer, and the orphan keeps running |
| `Scenarios.StatusLightsAll` | galicaster_plugin_blinkstick/blinkstick_plugin.py:131-138 | on a healthy device a non-paused status lights all eight LEDs with its colour |
| `Scenarios.StartsDark` | galicaster_plugin_blinkstick/blinkstick_plugin.py:87-88 | with default colours, a plugin started while the recorder initialises or previews with no recording scheduled turns all eight LEDs "#000000" |
| `Scenarios.PreviewAndRecording` | galicaster_plugin_blinkstick/blinkstick_plugin.py:19-25 | with default colours, previewing with no recording scheduled lights all LEDs "#000000" and recording lights them "#ff0000" |
| `Scenarios.ErrorLightsAll` | galicaster_plugin_blinkstick/blinkstick_plugin.py:24 | with default colours, a recorder error on a healthy device lights all eight LEDs "#aa00aa" |
| `Scenarios.UpcomingWithinWindow` | galicaster_plugin_blinkstick/blinkstick_plugin.py:103-112 | a recording 30 s away with a 60 s lookahead lights all LEDs "#ffff00" |
| `Scenarios.PauseFlashes` | galicaster_plugin_blinkstick/blinkstick_plugin.py:121-123 | pausing after recording schedules a 1000 ms timer; the first firing shows "#000000" and the second "#ff0000", each asking to run again |
| `Scenarios.QuitWhileFlashing` | galicaster_plugin_blinkstick/blinkstick_plugin.py:116-117 | quitting while flashing writes "#000000" but leaves the flash and its timer live |
| `Scenarios.UsbErrorSkipsLed` | galicaster_plugin_blinkstick/blinkstick_plugin.py:156-161 | a USB error on LED 3 gives one attempt at LED 3, and the loop goes on with LED 4 |

## Left out

- GLib's timer mechanics (`timeout_add`, `source_remove`, firing times) are represented only by timer effects and an explicit "timer fires" event. The pause delay is recorded but not otherwise used.
- The blinkstick and pyusb libraries (`find_first`, `usb.core.find`, `dev.reset`, `bs.set_color`) are foreign I/O. They appear as the outcome inputs of `Env` and as effects in the trace.
- `Device.Acquire` assumes that `usb.core.find` and `dev.reset` do not raise. In the source such an exception would escape `get_blinkstick` and then `set_color`: from the first acquisition at line 143 as well as from the re-acquisition inside the write loop.
- Logging is not modelled as such. Only error logs are kept, because they carry the log-once behaviour. USB warnings are implied by `UsbError` writes in the trace, and the two warnings of `get_blinkstick` (lines 184 and 190) are dropped. The debug lines at lines 35-47 belong to `init()`, which is not modelled.
- `datetime` arithmetic is reduced to whole seconds, so sub-second differences between a start time and now are not modelled.
- The host's context globals (`conf`, `dispatcher`, `repo`, `recorder`) and the `dispatcher.connect` wiring are left out. The recorder's status, the next recording's start time and the current time are event inputs instead.
- Reading the configuration in `init()`, with its defaults, is glue. Only the default constants are kept.
- `galicaster_plugin_blinkstick/__init__.py`, a host version check through a library outside this model, is not part of this model.

=== FILE: controller.dfy ===
/** The plugin's event handlers: status changes, the upcoming-recording
    notice, the periodic resync, the flash timer's callback and quit. Each
    takes the plugin and the hardware's behaviour and returns the plugin
    afterwards with the effects produced.
 */
module Controller {
  import opened Types
  import opened Trace
  import opened Device

  /** Colour `set_status` writes for a status, or `None` for `Paused`,
      which is shown by flashing instead. */
  function StatusColor(cfg: Config, s: Status): (c: Option<Color>)
    ensures c == None <==> s == Paused
  {
    match s
    case Preview => Some(cfg.previewColor)
    case Init => Some(cfg.previewColor)
    case Error => Some(cfg.errorColor)
    case Recording => Some(cfg.recColor)
    case Upcoming => Some(cfg.upcomingColor)
    case Paused => None
  }

  /** `set_status` schedules a flash timer on this call. */
  predicate StartsFlash(p: Plugin, s: Status) {
    s == Paused && p.flash == None
  }

  /** `set_status`: a `Paused` status starts flashing unless a flash is
      already live; every other call cancels a live flash and then writes
      the status's colour (so a second `Paused` cancels the flash and
      writes nothing). `token` is the id GLib hands back when a timer is
      scheduled. */
  function SetStatus(p: Plugin, s: Status, token: Token, env: Env): (r: Step)
    ensures r.plugin.cfg == p.cfg
    ensures r.plugin.flash.Some? <==> StartsFlash(p, s)
    ensures StartsFlash(p, s) ==>
      r == Step(p.(flash := Some(token)), [ScheduleTimer(token, p.cfg.pauseDelay)])
    ensures !StartsFlash(p, s) && p.flash.Some? ==>
      |r.effects| > 0 && r.effects[0] == RemoveTimer(p.flash.value) && NoTimerOps(r.effects[1..])
    ensures !StartsFlash(p, s) && p.flash.None? ==> NoTimerOps(r.effects)
    ensures s == Paused && p.flash.Some? ==>
      r == Step(p.(flash := None), [RemoveTimer(p.flash.value)])
    ensures s != Paused && Reachable(p, env) ==> r.plugin.led == StatusColor(p.cfg, s).value
    ensures s != Paused && !Reachable(p, env) ==> r.plugin == p.(bs := Absent, flash := None)
  {
    if StartsFlash(p, s) then
      Step(p.(flash := Some(token)), [ScheduleTimer(token, p.cfg.pauseDelay)])
    else
      var cancel := if p.flash.Some? then [RemoveTimer(p.flash.value)] else [];
      var q := p.(flash := None);
      match StatusColor(p.cfg, s)
      case None => Step(q, cancel)
      case Some(c) =>
        var a := SetColor(q, c, env);
        SetColorNoTimerOps(q, c, env);
        assert (cancel + a.step.effects)[|cancel|..] == a.step.effects;
        Step(a.step.plugin, cancel + a.step.effects)
  }

  /** Outside `Paused`, `set_status` writes LEDs 0, 1, … in order with
      exactly the status's colour (no flash toggling, as the flash was just
      cleared), all eight unless the handle is lost on the way, and none
      when no device can be found. */
  lemma SetStatusWrites(p: Plugin, s: Status, token: Token, env: Env)
    requires s != Paused
    ensures var w := Writes(SetStatus(p, s, token, env).effects);
      && (!Reachable(p, env) ==> w == [])
      && (Reachable(p, env) ==>
            && |w| <= LedCount
            && WritesFrom(w, 0, StatusColor(p.cfg, s).value, env)
            && (SetStatus(p, s, token, env).plugin.bs == Present ==> |w| == LedCount))
  {
    var q := p.(flash := None);
    var c := StatusColor(p.cfg, s).value;
    var a := SetColor(q, c, env);
    var cancel := if p.flash.Some? then [RemoveTimer(p.flash.value)] else [];
    var r := SetStatus(p, s, token, env);
    assert r == Step(a.step.plugin, cancel + a.step.effects);
    assert Writes(r.effects) == Writes(a.step.effects) by {
      assert Writes(cancel) == [] by {
        if cancel != [] { Single(RemoveTimer(p.flash.value)); }
      }
      WritesAppend(cancel, a.step.effects);
    }
    assert Reachable(q, env) == Reachable(p, env) && Toggled(q, c) == c;
    SetColorWrites(q, c, env);
  }

  /** The status the periodic resync shows: the recorder's, except that
      `Preview` (and only `Preview`) becomes `Upcoming` when a next
      recording exists whose start is at most `upcomingTime` seconds away,
      a start already past included. Times are whole seconds. */
  function ResolveStatus(cfg: Config, recorder: Status, next: Option<int>, now: int): (s: Status)
    ensures recorder != Preview ==> s == recorder
    ensures recorder == Preview ==>
      (s == Upcoming <==> next.Some? && next.value - now <= cfg.upcomingTime)
    ensures recorder == Preview && s != Upcoming ==> s == Preview
  {
    if recorder == Preview && next.Some? && next.value - now <= cfg.upcomingTime then Upcoming
    else recorder
  }

  /** `_handle_timer`: while a flash is live nothing happens at all;
      otherwise `set_status` is called with the resolved status. */
  function HandleTimer(p: Plugin, recorder: Status, next: Option<int>, now: int, token: Token, env: Env): (r: Step)
    ensures p.flash.Some? ==> r == Step(p, [])
    ensures p.flash.None? ==> (r.plugin.flash.Some? <==> recorder == Paused)
    ensures p.flash.None? && recorder == Paused ==>
      r == Step(p.(flash := Some(token)), [ScheduleTimer(token, p.cfg.pauseDelay)])
    ensures p.flash.None? && recorder != Paused && Reachable(p, env) ==>
      r.plugin.led == StatusColor(p.cfg, ResolveStatus(p.cfg, recorder, next, now)).value
    ensures p.flash.None? && recorder != Paused && !Reachable(p, env) ==>
      r.plugin == p
  {
    if p.flash.None? then SetStatus(p, ResolveStatus(p.cfg, recorder, next, now), token, env)
    else Step(p, [])
  }

  /** The resync from a previewing recorder with a recording due within the
      lookahead window shows the upcoming colour, and never starts a flash;
      a `Paused` recorder with no live flash starts one. */
  lemma HandleTimerUpcoming(p: Plugin, recorder: Status, next: Option<int>, now: int, token: Token, env: Env)
    requires p.flash.None?
    ensures var r := HandleTimer(p, recorder, next, now, token, env);
      && (recorder == Preview && next.Some? && next.value - now <= p.cfg.upcomingTime && Reachable(p, env) ==>
            r.plugin.led == p.cfg.upcomingColor)
      && (recorder == Preview && (next.None? || next.value - now > p.cfg.upcomingTime) && Reachable(p, env) ==>
            r.plugin.led == p.cfg.previewColor)
      && (r.plugin.flash.Some? <==> recorder == Paused)
  {
  }

  /** With no flash live and the recorder not paused, the resync writes
      LEDs 0, 1, … in order with exactly the resolved status's colour, all
      eight unless the handle is lost on the way, and none when no device
      can be found. */
  lemma HandleTimerWrites(p: Plugin, recorder: Status, next: Option<int>, now: int, token: Token, env: Env)
    ensures var r := HandleTimer(p, recorder, next, now, token, env);
      && var w := Writes(r.effects);
      && (p.flash.None? && recorder != Paused && !Reachable(p, env) ==> w == [])
      && (p.flash.None? && recorder != Paused && Reachable(p, env) ==>
            && |w| <= LedCount
            && WritesFrom(w, 0, StatusColor(p.cfg, ResolveStatus(p.cfg, recorder, next, now)).value, env)
            && (r.plugin.bs == Present ==> |w| == LedCount))
  {
    if p.flash.None? && recorder != Paused {
      SetStatusWrites(p, ResolveStatus(p.cfg, recorder, next, now), token, env);
    }
  }

  /** `_handle_upcoming`: show the upcoming colour, cancelling any flash. */
  function HandleUpcoming(p: Plugin, token: Token, env: Env): (r: Step)
    ensures r.plugin.flash == None
    ensures Reachable(p, env) ==> r.plugin.led == p.cfg.upcomingColor
    ensures p.flash.Some? ==> |r.effects| > 0 && r.effects[0] == RemoveTimer(p.flash.value)
  {
    SetStatus(p, Upcoming, token, env)
  }

  /** `_handle_status_change`: forward the recorder's status to `set_status`. */
  function HandleStatusChange(p: Plugin, s: Status, token: Token, env: Env): (r: Step)
    ensures r.plugin.flash.Some? <==> s == Paused && p.flash == None
    ensures s != Paused && Reachable(p, env) ==> r.plugin.led == StatusColor(p.cfg, s).value
    ensures (s == Init || s == Preview) && Reachable(p, env) ==> r.plugin.led == p.cfg.previewColor
    ensures s == Error && Reachable(p, env) ==> r.plugin.led == p.cfg.errorColor
    ensures s == Recording && Reachable(p, env) ==> r.plugin.led == p.cfg.recColor
  {
    SetStatus(p, s, token, env)
  }

  /** `_handle_quit`: write the off colour through `set_color`, and nothing
      more. A live flash is not cancelled: it keeps its token, no timer is
      removed, and the flash toggle still applies, so quitting while the off
      colour is showing writes the preview colour. */
  function HandleQuit(p: Plugin, env: Env): (r: Step)
    ensures NoTimerOps(r.effects)
    ensures Reachable(p, env) ==> r.plugin.flash == p.flash
    ensures Reachable(p, env) ==>
      r.plugin.led == (if p.flash.Some? && p.led == p.cfg.offColor then p.cfg.previewColor else p.cfg.offColor)
    ensures !Reachable(p, env) ==> r.plugin.flash == None && Writes(r.effects) == []
  {
    SetColorWrites(p, p.cfg.offColor, env);
    SetColorNoTimerOps(p, p.cfg.offColor, env);
    SetColor(p, p.cfg.offColor, env).step
  }

  /** The flash timer's callback, `set_color(pause_color)`; its return value
      tells GLib whether to call it again. */
  function Fire(p: Plugin, env: Env): (a: Applied)
    ensures a.ret.Some? <==> p.flash.Some? && Reachable(p, env)
    ensures a.ret.Some? ==> a.ret == p.flash
    ensures p.flash.Some? && Reachable(p, env) ==>
      a.step.plugin.led == (if p.led == p.cfg.pauseColor then p.cfg.previewColor else p.cfg.pauseColor)
  {
    SetColor(p, p.cfg.pauseColor, env)
  }

  /** Two firings of a live flash with a device present come back to the
      colour shown before, once that colour is the pause or preview colour
      and the two differ: the LEDs alternate between them. */
  lemma FireTwiceAlternates(p: Plugin, env1: Env, env2: Env)
    requires p.flash.Some? && Reachable(p, env1)
    requires Reachable(Fire(p, env1).step.plugin, env2)
    requires p.led == p.cfg.pauseColor || p.led == p.cfg.previewColor
    requires p.cfg.pauseColor != p.cfg.previewColor
    ensures var q := Fire(p, env1).step.plugin;
      && q.led != p.led
      && Fire(q, env2).step.plugin.led == p.led
      && Fire(q, env2).ret == p.flash
  {
  }

  /** The constructor followed by its `_handle_timer` call: a plugin that
      starts while the recorder is paused is flashing, any other is not. */
  function Create(cfg: Config, recorder: Status, next: Option<int>, now: int, token: Token, env: Env): (r: Step)
    ensures r.plugin.cfg == cfg
    ensures r.plugin.flash.Some? <==> recorder == Paused
    ensures recorder == Paused ==> Writes(r.effects) == [] && r.plugin.led == cfg.previewColor
    ensures recorder != Paused && env.find(0) == Found ==>
      r.plugin.led == StatusColor(cfg, ResolveStatus(cfg, recorder, next, now)).value
    ensures recorder != Paused && env.find(0) != Found ==>
      r.plugin == Initial(cfg) && Writes(r.effects) == []
  {
    HandleTimerWrites(Initial(cfg), recorder, next, now, token, env);
    HandleTimer(Initial(cfg), recorder, next, now, token, env)
  }
}

=== FILE: device.dfy ===
/** The device side of the controller: acquiring a Blinkstick
    (`get_blinkstick`) and pushing one colour to its LEDs (`set_color`),
    absorbing every device fault.
 */
module Device {
  import opened Types
  import opened Trace

  /** `get_blinkstick`: the handle held afterwards and the effects of the
      attempt. A failed `find_first` resets the USB link when one is found,
      and yields no handle either way. */
  function Acquire(o: FindOutcome): (r: Acquired)
    ensures r.bs == Present <==> o == Found
    ensures r.fx == (if o == FindFailed(true) then [LinkReset] else [])
  {
    match o
    case Found => Acquired(Present, [])
    case NotFound => Acquired(Absent, [])
    case FindFailed(link) => Acquired(Absent, if link then [LinkReset] else [])
  }

  /** The handle an acquisition leaves and the effects it made. */
  datatype Acquired = Acquired(bs: Handle, fx: seq<Effect>)

  /** State threaded through the per-LED loop: the handle, the error flag,
      and how many acquisitions were made so far. */
  datatype LoopState = LoopState(bs: Handle, error: bool, finds: nat)

  /** A stretch of the loop: the state after it and the effects it made. */
  datatype Pass = Pass(state: LoopState, fx: seq<Effect>)

  /** Inside the loop the handle is lost only by a failed re-acquisition,
      which also raises the error flag; only a write through a handle lowers
      it again. */
  predicate Coherent(ls: LoopState) {
    ls.bs == Absent ==> ls.error
  }

  /** One pass of the loop body for LED `i`. With no handle, the call on
      `None` raises an AttributeError, which lands in the generic exception
      branch without reaching a device. A USB error only warns: assigning
      `i - 1` to a `for` variable does not repeat the index. */
  function WriteOne(i: nat, hex: Color, ls: LoopState, env: Env): (r: Pass)
    ensures Coherent(ls) ==> Coherent(r.state)
    ensures !ls.error && (ls.bs == Absent || env.write(i) == Other) ==>
      r.state == LoopState(Acquire(env.find(ls.finds)).bs, true, ls.finds + 1)
    ensures ls.error || (ls.bs == Present && env.write(i) != Other) ==>
      r.state.bs == ls.bs && r.state.finds == ls.finds
  {
    var outcome := if ls.bs == Present then env.write(i) else Other;
    var w := if ls.bs == Present then [Write(i, hex, outcome)] else [];
    match outcome
    case Ok => Pass(ls.(error := false), w)
    case UsbError => Pass(ls, w)
    case Other =>
      if ls.error then Pass(ls, w)
      else
        var a := Acquire(env.find(ls.finds));
        Pass(LoopState(a.bs, true, ls.finds + 1), w + [ErrorLogged] + a.fx)
  }

  /** A pass resets the USB link exactly when it re-acquires after a fault
      that met the flag down and that lookup's `find_first` raised with the
      link present. */
  lemma WriteOneResets(i: nat, hex: Color, ls: LoopState, env: Env)
    ensures var r := WriteOne(i, hex, ls, env);
      LinkReset in r.fx <==>
        && !ls.error && (ls.bs == Absent || env.write(i) == Other)
        && env.find(ls.finds) == FindFailed(true)
  {
  }

  /** The loop `for i in range(LED_COUNT)` from index `i` on. */
  function WriteLoop(i: nat, hex: Color, ls: LoopState, env: Env): (r: Pass)
    requires i <= LedCount
    ensures Coherent(ls) ==> Coherent(r.state)
    ensures ls.finds <= r.state.finds <= ls.finds + (LedCount - i)
    decreases LedCount - i, 1
  {
    if i == LedCount then Pass(ls, [])
    else Then(i, hex, WriteOne(i, hex, ls, env), env)
  }

  /** The loop after the pass for LED `i`, `first`, has run: the rest of
      the LEDs, starting from the state that pass left. */
  function Then(i: nat, hex: Color, first: Pass, env: Env): Pass
    requires i < LedCount
    decreases LedCount - i, 0
  {
    var rest := WriteLoop(i + 1, hex, first.state, env);
    Pass(rest.state, first.fx + rest.fx)
  }

  /** A flag as a count: 1 when set, 0 otherwise. */
  function CountIf(b: bool): nat { if b then 1 else 0 }

  /** What one loop pass writes: LED `i` once through a live handle,
      nothing without one; the handle and flag stay coherent. */
  lemma WriteOneWrites(i: nat, hex: Color, ls: LoopState, env: Env)
    requires Coherent(ls)
    ensures var r := WriteOne(i, hex, ls, env);
      && Writes(r.fx) == (if ls.bs == Present then [Write(i, hex, env.write(i))] else [])
      && Coherent(r.state)
      && (ls.bs == Absent ==> r.state == ls)
  {
    var outcome := if ls.bs == Present then env.write(i) else Other;
    var w := if ls.bs == Present then [Write(i, hex, outcome)] else [];
    Single(Write(i, hex, outcome));
    assert Writes([]) == [];
    if outcome == Other && !ls.error {
      var rfx := Acquire(env.find(ls.finds)).fx;
      WritesAppend(w, [ErrorLogged]);
      WritesAppend(w + [ErrorLogged], rfx);
      Single(ErrorLogged);
      if rfx != [] {
        Single(LinkReset);
      }
    }
  }

  lemma WriteOneNoTimerOps(i: nat, hex: Color, ls: LoopState, env: Env)
    ensures NoTimerOps(WriteOne(i, hex, ls, env).fx)
  {
  }

  /** How one loop pass moves the error flag against the error logs. */
  lemma WriteOneLogs(i: nat, hex: Color, ls: LoopState, env: Env)
    ensures var r := WriteOne(i, hex, ls, env);
      && ErrorLogs(r.fx) + CountIf(!r.state.error) <= CountIf(!ls.error) + OkWrites(r.fx)
      && ErrorLogs(r.fx) == r.state.finds - ls.finds
  {
    var outcome := if ls.bs == Present then env.write(i) else Other;
    var w := if ls.bs == Present then [Write(i, hex, outcome)] else [];
    Single(Write(i, hex, outcome));
    assert ErrorLogs([]) == 0 && OkWrites([]) == 0;
    if outcome == Other && !ls.error {
      var rfx := Acquire(env.find(ls.finds)).fx;
      ErrorLogsAppend(w, [ErrorLogged]);
      ErrorLogsAppend(w + [ErrorLogged], rfx);
      OkWritesAppend(w, [ErrorLogged]);
      OkWritesAppend(w + [ErrorLogged], rfx);
      Single(ErrorLogged);
      if rfx != [] {
        Single(LinkReset);
      }
    }
  }

  /** The recovery step of one pass: a fault with the flag down, including
      the AttributeError of a lost handle, is logged once and re-acquires
      the device, whose handle becomes what that lookup finds; any other
      pass logs nothing and keeps the handle. */
  lemma WriteOneRecovery(i: nat, hex: Color, ls: LoopState, env: Env)
    ensures var r := WriteOne(i, hex, ls, env);
      && (!ls.error && (ls.bs == Absent || env.write(i) == Other) ==>
            ErrorLogs(r.fx) == 1 && r.state == LoopState(Acquire(env.find(ls.finds)).bs, true, ls.finds + 1))
      && (ls.error || (ls.bs == Present && env.write(i) != Other) ==>
            ErrorLogs(r.fx) == 0 && r.state.bs == ls.bs && r.state.finds == ls.finds)
  {
    WriteOneLogs(i, hex, ls, env);
  }

  /** One pass keeps the log-once rule: replayed from the flag it starts
      with, its trace is accepted and ends at the flag it leaves. */
  lemma WriteOneReplay(i: nat, hex: Color, ls: LoopState, env: Env)
    requires Coherent(ls)
    ensures var r := WriteOne(i, hex, ls, env);
      Replay(r.fx, FlagState(ls.error)) == Some(FlagState(r.state.error))
  {
    var outcome := if ls.bs == Present then env.write(i) else Other;
    Single(Write(i, hex, outcome));
    assert Replay([], FlagState(ls.error)) == Some(FlagState(ls.error));
    if outcome == Other && !ls.error {
      var w := [Write(i, hex, Other)];
      var rfx := Acquire(env.find(ls.finds)).fx;
      Single(ErrorLogged);
      ReplayAppend(w, [ErrorLogged], FlagDown);
      ReplayAppend(w + [ErrorLogged], rfx, FlagDown);
      if rfx != [] {
        Single(LinkReset);
      } else {
        assert Replay(rfx, FlagUp) == Some(FlagUp);
      }
    }
  }

  /** The writes of LEDs `i`, …, `i+n-1` in turn, each with colour `hex`
      and the outcome the device gives for that LED. */
  function Span(i: nat, n: nat, hex: Color, env: Env): (w: seq<Effect>)
    ensures |w| == n
    decreases n
  {
    if n == 0 then [] else [Write(i, hex, env.write(i))] + Span(i + 1, n - 1, hex, env)
  }

  /** The `j`-th write of a span is LED `i+j`'s. */
  lemma {:induction false} SpanAt(i: nat, n: nat, hex: Color, env: Env, j: nat)
    requires j < n
    ensures Span(i, n, hex, env)[j] == Write(i + j, hex, env.write(i + j))
    decreases n
  {
    if j > 0 {
      SpanAt(i + 1, n - 1, hex, env, j - 1);
    }
  }

  /** `w` writes LEDs `i`, `i+1`, … in turn, each with colour `hex` and
      the outcome the device gives for that LED. */
  predicate WritesFrom(w: seq<Effect>, i: nat, hex: Color, env: Env) {
    w == Span(i, |w|, hex, env)
  }

  /** How one loop pass sets the error flag. */
  lemma WriteOneError(i: nat, hex: Color, ls: LoopState, env: Env)
    ensures var r := WriteOne(i, hex, ls, env);
      && (ls.bs == Present && env.write(i) == Ok ==> !r.state.error)
      && (env.write(i) == Other || ls.bs == Absent ==> r.state.error)
  {
  }

  /** The loop from index `i` is its first pass followed by the rest. */
  lemma WriteLoopUnfold(i: nat, hex: Color, ls: LoopState, env: Env)
    requires i < LedCount
    ensures var first := WriteOne(i, hex, ls, env);
      var rest := WriteLoop(i + 1, hex, first.state, env);
      WriteLoop(i, hex, ls, env) == Pass(rest.state, first.fx + rest.fx)
  {
  }

  /** Over the loop the handle and flag stay coherent, and without a handle
      the loop changes nothing. */
  lemma {:induction false} WriteLoopCoherent(i: nat, hex: Color, ls: LoopState, env: Env)
    requires i <= LedCount
    requires Coherent(ls)
    ensures var r := WriteLoop(i, hex, ls, env);
      && Coherent(r.state)
      && (ls.bs == Absent ==> Writes(r.fx) == [] && r.state == ls)
    decreases LedCount - i
  {
    if i == LedCount {
      assert Writes([]) == [];
    } else {
      var first := WriteOne(i, hex, ls, env);
      var rest := WriteLoop(i + 1, hex, first.state, env);
      var r := WriteLoop(i, hex, ls, env);
      assert r.state == rest.state && Writes(r.fx) == Writes(first.fx) + Writes(rest.fx) by {
        WriteLoopUnfold(i, hex, ls, env);
        WritesAppend(first.fx, rest.fx);
      }
      assert Coherent(first.state) && (ls.bs == Absent ==> Writes(first.fx) == [] && first.state == ls) by {
        WriteOneWrites(i, hex, ls, env);
      }
      assert Coherent(rest.state) && (first.state.bs == Absent ==> Writes(rest.fx) == [] && rest.state == first.state) by {
        WriteLoopCoherent(i + 1, hex, first.state, env);
      }
      if ls.bs == Absent {
        assert Writes(first.fx) + Writes(rest.fx) == [];
      }
    }
  }

  /** The writes of one pass followed by those of the rest of the loop. */
  lemma OrderCompose(i: nat, hex: Color, env: Env, a: seq<Effect>, b: seq<Effect>)
    requires i < LedCount
    requires a == [Write(i, hex, env.write(i))] || (a == [] && b == [])
    requires |b| <= LedCount - (i + 1) && WritesFrom(b, i + 1, hex, env)
    ensures |a + b| <= LedCount - i && WritesFrom(a + b, i, hex, env)
  {
    if a != [] {
      assert Span(i, |b| + 1, hex, env) == a + Span(i + 1, |b|, hex, env);
    } else {
      assert a + b == [];
    }
  }

  /** The write loop from index `i`: LEDs `i`, `i+1`, … are written in
      ascending order, each at most once, with the loop's colour and the
      device's outcome for that LED. */
  lemma {:induction false} WriteLoopOrder(i: nat, hex: Color, ls: LoopState, env: Env)
    requires i <= LedCount
    requires Coherent(ls)
    ensures var w := Writes(WriteLoop(i, hex, ls, env).fx);
      |w| <= LedCount - i && WritesFrom(w, i, hex, env)
    decreases LedCount - i
  {
    if i == LedCount {
      assert Writes([]) == [];
    } else {
      var first := WriteOne(i, hex, ls, env);
      var rest := WriteLoop(i + 1, hex, first.state, env);
      var a, b := Writes(first.fx), Writes(rest.fx);
      assert Writes(WriteLoop(i, hex, ls, env).fx) == a + b by {
        WriteLoopUnfold(i, hex, ls, env);
        WritesAppend(first.fx, rest.fx);
      }
      assert a == [Write(i, hex, env.write(i))] || (a == [] && b == []) by {
        WriteOneWrites(i, hex, ls, env);
        if ls.bs == Absent {
          WriteLoopCoherent(i + 1, hex, first.state, env);
        }
      }
      assert |b| <= LedCount - (i + 1) && WritesFrom(b, i + 1, hex, env) by {
        WriteOneWrites(i, hex, ls, env);
        WriteLoopOrder(i + 1, hex, first.state, env);
      }
      OrderCompose(i, hex, env, a, b);
    }
  }

  /** All remaining LEDs are written when the handle survives the loop. */
  lemma {:induction false} WriteLoopComplete(i: nat, hex: Color, ls: LoopState, env: Env)
    requires i <= LedCount
    requires Coherent(ls)
    ensures var r := WriteLoop(i, hex, ls, env);
      r.state.bs == Present ==> |Writes(r.fx)| == LedCount - i
    decreases LedCount - i
  {
    if i == LedCount {
      assert Writes([]) == [];
    } else {
      var first := WriteOne(i, hex, ls, env);
      var rest := WriteLoop(i + 1, hex, first.state, env);
      var r := WriteLoop(i, hex, ls, env);
      assert r.state == rest.state && Writes(r.fx) == Writes(first.fx) + Writes(rest.fx) by {
        WriteLoopUnfold(i, hex, ls, env);
        WritesAppend(first.fx, rest.fx);
      }
      assert && Coherent(first.state)
             && (ls.bs == Present ==> |Writes(first.fx)| == 1)
             && (ls.bs == Absent ==> first.state == ls) by {
        WriteOneWrites(i, hex, ls, env);
      }
      if rest.state.bs == Present {
        assert first.state.bs == Present by {
          WriteLoopCoherent(i + 1, hex, first.state, env);
        }
        assert |Writes(rest.fx)| == LedCount - (i + 1) by {
          WriteLoopComplete(i + 1, hex, first.state, env);
        }
      }
    }
  }

  /** The whole write loop: LEDs `i`, `i+1`, … in ascending order, each at
      most once, all of them when the handle survives, none without one. */
  lemma WriteLoopWrites(i: nat, hex: Color, ls: LoopState, env: Env)
    requires i <= LedCount
    requires Coherent(ls)
    ensures var r := WriteLoop(i, hex, ls, env);
      && var w := Writes(r.fx);
      && |w| <= LedCount - i
      && WritesFrom(w, i, hex, env)
      && (r.state.bs == Present ==> |w| == LedCount - i)
      && (ls.bs == Absent ==> w == [])
  {
    WriteLoopCoherent(i, hex, ls, env);
    WriteLoopOrder(i, hex, ls, env);
    WriteLoopComplete(i, hex, ls, env);
  }

  /** The write loop never touches a timer. */
  lemma {:induction false} WriteLoopNoTimerOps(i: nat, hex: Color, ls: LoopState, env: Env)
    requires i <= LedCount
    ensures NoTimerOps(WriteLoop(i, hex, ls, env).fx)
    decreases LedCount - i
  {
    if i < LedCount {
      var first := WriteOne(i, hex, ls, env);
      WriteLoopUnfold(i, hex, ls, env);
      WriteOneNoTimerOps(i, hex, ls, env);
      WriteLoopNoTimerOps(i + 1, hex, first.state, env);
      NoTimerOpsAppend(first.fx, WriteLoop(i + 1, hex, first.state, env).fx);
    }
  }

  /** Error logs never outnumber the fault streaks of one loop run: a log
      needs the flag down, and only a successful write brings it down again.
      Each log goes with exactly one re-acquisition. */
  lemma {:induction false} WriteLoopLogs(i: nat, hex: Color, ls: LoopState, env: Env)
    requires i <= LedCount
    ensures var r := WriteLoop(i, hex, ls, env);
      && ErrorLogs(r.fx) + CountIf(!r.state.error) <= CountIf(!ls.error) + OkWrites(r.fx)
      && ErrorLogs(r.fx) == r.state.finds - ls.finds
    decreases LedCount - i
  {
    if i == LedCount {
      assert ErrorLogs([]) == 0 && OkWrites([]) == 0;
    } else {
      var first := WriteOne(i, hex, ls, env);
      var rest := WriteLoop(i + 1, hex, first.state, env);
      var e1, e2 := ErrorLogs(first.fx), ErrorLogs(rest.fx);
      var o1, o2 := OkWrites(first.fx), OkWrites(rest.fx);
      var r := WriteLoop(i, hex, ls, env);
      assert r.state == rest.state && ErrorLogs(r.fx) == e1 + e2 && OkWrites(r.fx) == o1 + o2 by {
        WriteLoopUnfold(i, hex, ls, env);
        ErrorLogsAppend(first.fx, rest.fx);
        OkWritesAppend(first.fx, rest.fx);
      }
      assert e1 + CountIf(!first.state.error) <= CountIf(!ls.error) + o1 && e1 == first.state.finds - ls.finds by {
        WriteOneLogs(i, hex, ls, env);
      }
      assert e2 + CountIf(!rest.state.error) <= CountIf(!first.state.error) + o2 && e2 == rest.state.finds - first.state.finds by {
        WriteLoopLogs(i + 1, hex, first.state, env);
      }
    }
  }

  /** The whole loop keeps the log-once rule: an error is logged right
      after every fault that meets the flag down, and at no other time. */
  lemma {:induction false} WriteLoopReplay(i: nat, hex: Color, ls: LoopState, env: Env)
    requires i <= LedCount
    requires Coherent(ls)
    ensures var r := WriteLoop(i, hex, ls, env);
      Replay(r.fx, FlagState(ls.error)) == Some(FlagState(r.state.error))
    decreases LedCount - i
  {
    if i == LedCount {
      assert Replay([], FlagState(ls.error)) == Some(FlagState(ls.error));
    } else {
      var first := WriteOne(i, hex, ls, env);
      var rest := WriteLoop(i + 1, hex, first.state, env);
      var r := WriteLoop(i, hex, ls, env);
      assert r == Pass(rest.state, first.fx + rest.fx) by {
        WriteLoopUnfold(i, hex, ls, env);
      }
      assert Replay(first.fx, FlagState(ls.error)) == Some(FlagState(first.state.error)) by {
        WriteOneReplay(i, hex, ls, env);
      }
      assert Replay(rest.fx, FlagState(first.state.error)) == Some(FlagState(rest.state.error)) by {
        WriteLoopReplay(i + 1, hex, first.state, env);
      }
      ReplayAppend(first.fx, rest.fx, FlagState(ls.error));
    }
  }

  /** A fault with the device present and the flag down: when the lookup
      finds a device, the loop goes on writing the next LEDs through it,
      flag up; when it does not, no further LED is written and the handle
      stays lost. */
  lemma WriteLoopRecovery(i: nat, hex: Color, ls: LoopState, env: Env)
    requires i < LedCount
    requires ls.bs == Present && !ls.error && env.write(i) == Other
    ensures var r := WriteLoop(i, hex, ls, env);
      && var next := LoopState(Acquire(env.find(ls.finds)).bs, true, ls.finds + 1);
      && (env.find(ls.finds) == Found ==>
            Writes(r.fx) == [Write(i, hex, Other)] + Writes(WriteLoop(i + 1, hex, next, env).fx))
      && (env.find(ls.finds) != Found ==>
            Writes(r.fx) == [Write(i, hex, Other)] && r.state == next)
  {
    var first := WriteOne(i, hex, ls, env);
    var rest := WriteLoop(i + 1, hex, first.state, env);
    var r := WriteLoop(i, hex, ls, env);
    assert r.state == rest.state && Writes(r.fx) == Writes(first.fx) + Writes(rest.fx) by {
      WriteLoopUnfold(i, hex, ls, env);
      WritesAppend(first.fx, rest.fx);
    }
    WriteOneWrites(i, hex, ls, env);
    if env.find(ls.finds) != Found {
      assert Writes(rest.fx) == [] && rest.state == first.state by {
        WriteLoopCoherent(i + 1, hex, first.state, env);
      }
    }
  }

  /** After the loop the error flag follows the last LED's write: down when
      it succeeded through a live handle, up when it raised anything but a
      USB error. */
  lemma {:induction false} WriteLoopLastError(i: nat, hex: Color, ls: LoopState, env: Env)
    requires i < LedCount
    requires Coherent(ls)
    ensures var r := WriteLoop(i, hex, ls, env);
      && (r.state.bs == Present && env.write(LedCount - 1) == Ok ==> !r.state.error)
      && (env.write(LedCount - 1) == Other ==> r.state.error)
    decreases LedCount - i
  {
    var first := WriteOne(i, hex, ls, env);
    WriteLoopUnfold(i, hex, ls, env);
    WriteOneError(i, hex, ls, env);
    WriteOneWrites(i, hex, ls, env);
    if i + 1 < LedCount {
      WriteLoopLastError(i + 1, hex, first.state, env);
    } else {
      assert WriteLoop(i + 1, hex, first.state, env).state == first.state;
    }
  }

  /** One turn of the counted loop keeps what is left to run in step with
      the recursive loop. */
  lemma RunStep(i: nat, hex: Color, start: LoopState, ls: LoopState, fx: seq<Effect>, env: Env)
    requires i < LedCount
    requires WriteLoop(0, hex, start, env) == Pass(WriteLoop(i, hex, ls, env).state, fx + WriteLoop(i, hex, ls, env).fx)
    ensures var one := WriteOne(i, hex, ls, env);
      var rest := WriteLoop(i + 1, hex, one.state, env);
      WriteLoop(0, hex, start, env) == Pass(rest.state, (fx + one.fx) + rest.fx)
  {
    var one := WriteOne(i, hex, ls, env);
    var rest := WriteLoop(i + 1, hex, one.state, env);
    WriteLoopUnfold(i, hex, ls, env);
    assert fx + (one.fx + rest.fx) == (fx + one.fx) + rest.fx;
  }

  /** The same loop written as the source writes it, a counted loop over the
      LED indices appending to one trace; it computes what `WriteLoop` does. */
  method RunWriteLoop(hex: Color, start: LoopState, env: Env) returns (ls: LoopState, fx: seq<Effect>)
    requires Coherent(start)
    ensures Pass(ls, fx) == WriteLoop(0, hex, start, env)
    ensures var w := Writes(fx);
      && |w| <= LedCount
      && WritesFrom(w, 0, hex, env)
      && (ls.bs == Present ==> |w| == LedCount)
  {
    ls, fx := start, [];
    var i := 0;
    while i < LedCount
      invariant 0 <= i <= LedCount
      invariant WriteLoop(0, hex, start, env) == Pass(WriteLoop(i, hex, ls, env).state, fx + WriteLoop(i, hex, ls, env).fx)
    {
      var one := WriteOne(i, hex, ls, env);
      RunStep(i, hex, start, ls, fx, env);
      ls, fx := one.state, fx + one.fx;
      i := i + 1;
    }
    assert WriteLoop(i, hex, ls, env) == Pass(ls, []);
    assert fx + [] == fx;
    WriteLoopWrites(0, hex, start, env);
  }

  /** The device can be written at the start of `set_color`: a handle is
      held, or the first acquisition finds one. */
  predicate Reachable(p: Plugin, env: Env) {
    p.bs == Present || env.find(0) == Found
  }

  /** The colour `set_color(hex)` actually writes: while flashing, asking
      for the colour already shown writes the preview colour instead. */
  function Toggled(p: Plugin, hex: Color): Color {
    if p.flash.Some? && p.led == hex then p.cfg.previewColor else hex
  }

  /** `set_color`: acquire the device if needed, abort when there is none,
      otherwise write every LED and remember the colour actually written,
      even when every write failed; return the flash token so that a flash
      timer keeps going only while flashing. */
  function SetColor(p: Plugin, hex: Color, env: Env): (r: Applied)
    ensures r.ret == r.step.plugin.flash
    ensures r.step.plugin.cfg == p.cfg
    ensures !Reachable(p, env) ==> r.step.plugin == p.(bs := Absent, flash := None)
    ensures Reachable(p, env) ==>
      && r.step.plugin.flash == p.flash
      && r.step.plugin.led == Toggled(p, hex)
    ensures p.bs == Absent ==>
      var fx0 := Acquire(env.find(0)).fx;
      |fx0| <= |r.step.effects| && r.step.effects[..|fx0|] == fx0
    ensures !Reachable(p, env) ==> r.step.effects == Acquire(env.find(0)).fx
  {
    var a0 := if p.bs == Absent then Acquire(env.find(0)) else Acquired(Present, []);
    var bs0, fx0 := a0.bs, a0.fx;
    var n0 := if p.bs == Absent then 1 else 0;
    if bs0 == Absent then
      Applied(Step(p.(bs := Absent, flash := None), fx0), None)
    else
      var color := Toggled(p, hex);
      var loop := WriteLoop(0, color, LoopState(bs0, p.error, n0), env);
      Applied(Step(p.(bs := loop.state.bs, error := loop.state.error, led := color), fx0 + loop.fx), p.flash)
  }

  /** The effects that `set_color` produces before its loop. */
  lemma AcquireEffects(o: FindOutcome)
    ensures var fx := Acquire(o).fx;
      Writes(fx) == [] && ErrorLogs(fx) == 0 && OkWrites(fx) == 0 && NoTimerOps(fx)
  {
    if o == FindFailed(true) {
      Single(LinkReset);
    }
  }

  /** With no device to be found, `set_color` writes no LED and stops the
      flash; otherwise LEDs 0, 1, … are written in order with the (possibly
      toggled) colour, all eight unless the handle is lost on the way. */
  lemma SetColorWrites(p: Plugin, hex: Color, env: Env)
    ensures var r := SetColor(p, hex, env);
      && var w := Writes(r.step.effects);
      && (!Reachable(p, env) ==> w == [] && r.ret == None)
      && (Reachable(p, env) ==>
            && |w| <= LedCount
            && WritesFrom(w, 0, Toggled(p, hex), env)
            && (r.step.plugin.bs == Present ==> |w| == LedCount))
  {
    var a0 := if p.bs == Absent then Acquire(env.find(0)) else Acquired(Present, []);
    var bs0, fx0 := a0.bs, a0.fx;
    var n0 := if p.bs == Absent then 1 else 0;
    AcquireEffects(env.find(0));
    assert Writes([]) == [];
    if bs0 == Present {
      var color := Toggled(p, hex);
      var loop := WriteLoop(0, color, LoopState(bs0, p.error, n0), env);
      WriteLoopWrites(0, color, LoopState(bs0, p.error, n0), env);
      WritesAppend(fx0, loop.fx);
    }
  }

  /** `set_color` never schedules or removes a timer. */
  lemma SetColorNoTimerOps(p: Plugin, hex: Color, env: Env)
    ensures NoTimerOps(SetColor(p, hex, env).step.effects)
  {
    var a0 := if p.bs == Absent then Acquire(env.find(0)) else Acquired(Present, []);
    var bs0, fx0 := a0.bs, a0.fx;
    var n0 := if p.bs == Absent then 1 else 0;
    AcquireEffects(env.find(0));
    if bs0 == Present {
      var color := Toggled(p, hex);
      WriteLoopNoTimerOps(0, color, LoopState(bs0, p.error, n0), env);
      NoTimerOpsAppend(fx0, WriteLoop(0, color, LoopState(bs0, p.error, n0), env).fx);
    }
  }

  /** `set_color` logs a device error at most once per fault streak: never
      more error logs than successful writes, plus one when the flag was
      down on entry. */
  lemma SetColorLogs(p: Plugin, hex: Color, env: Env)
    ensures var r := SetColor(p, hex, env);
      ErrorLogs(r.step.effects) <= CountIf(!p.error) + OkWrites(r.step.effects)
  {
    var a0 := if p.bs == Absent then Acquire(env.find(0)) else Acquired(Present, []);
    var bs0, fx0 := a0.bs, a0.fx;
    var n0 := if p.bs == Absent then 1 else 0;
    AcquireEffects(env.find(0));
    assert ErrorLogs([]) == 0 && OkWrites([]) == 0;
    if bs0 == Present {
      var color := Toggled(p, hex);
      var loop := WriteLoop(0, color, LoopState(bs0, p.error, n0), env);
      WriteLoopLogs(0, color, LoopState(bs0, p.error, n0), env);
      ErrorLogsAppend(fx0, loop.fx);
      OkWritesAppend(fx0, loop.fx);
    }
  }

  /** `set_color` keeps the log-once rule across calls: replayed from the
      flag it starts with, its trace is accepted and ends at the flag it
      leaves, so a fault meeting the flag down is always logged, right away,
      and no other fault is. */
  lemma SetColorReplay(p: Plugin, hex: Color, env: Env)
    ensures var r := SetColor(p, hex, env);
      Replay(r.step.effects, FlagState(p.error)) == Some(FlagState(r.step.plugin.error))
  {
    var a0 := if p.bs == Absent then Acquire(env.find(0)) else Acquired(Present, []);
    var bs0, fx0 := a0.bs, a0.fx;
    var n0 := if p.bs == Absent then 1 else 0;
    assert Replay(fx0, FlagState(p.error)) == Some(FlagState(p.error)) by {
      if fx0 != [] {
        Single(LinkReset);
      }
    }
    if bs0 == Present {
      var color := Toggled(p, hex);
      var loop := WriteLoop(0, color, LoopState(bs0, p.error, n0), env);
      WriteLoopReplay(0, color, LoopState(bs0, p.error, n0), env);
      ReplayAppend(fx0, loop.fx, FlagState(p.error));
    }
  }

  /** Neither a successful write nor a USB error drops the handle: while no
      write raises another exception, the loop keeps the device it started with. */
  lemma {:induction false} WriteLoopKeepsHandle(i: nat, hex: Color, ls: LoopState, env: Env)
    requires i <= LedCount
    requires ls.bs == Present
    requires forall j :: i <= j < LedCount ==> env.write(j) != Other
    ensures WriteLoop(i, hex, ls, env).state.bs == Present
    decreases LedCount - i
  {
    if i < LedCount {
      WriteLoopKeepsHandle(i + 1, hex, WriteOne(i, hex, ls, env).state, env);
    }
  }

  /** With a device at hand and no write raising anything but a USB error,
      `set_color` writes all eight LEDs once each, in order, a USB error
      leaving its LED as it is, and it keeps the handle. */
  lemma SetColorAllWritten(p: Plugin, hex: Color, env: Env)
    requires Reachable(p, env)
    requires forall j :: 0 <= j < LedCount ==> env.write(j) != Other
    ensures var r := SetColor(p, hex, env);
      && r.step.plugin.bs == Present
      && var w := Writes(r.step.effects);
      && |w| == LedCount
      && WritesFrom(w, 0, Toggled(p, hex), env)
  {
    var n0 := if p.bs == Absent then 1 else 0;
    WriteLoopKeepsHandle(0, Toggled(p, hex), LoopState(Present, p.error, n0), env);
    SetColorWrites(p, hex, env);
  }
}

=== FILE: scenarios.dfy ===
/** The plugin's documented behaviour on concrete inputs: mostly with the
    default colours and a device that takes every write, and once with a USB
    error on one LED under any configuration.
 */
module Scenarios {
  import opened Types
  import opened Trace
  import opened Device
  import opened Controller

  /** A device that is found and accepts every write. */
  ghost predicate Healthy(env: Env) {
    && (forall k :: env.find(k) == Found)
    && (forall j :: env.write(j) == Ok)
  }

  /** All eight LEDs written once, in order, with `c`, each successfully. */
  predicate AllLit(fx: seq<Effect>, c: Color) {
    Writes(fx) == seq(LedCount, (j: nat) => Write(j, c, Ok))
  }

  /** A full span from LED 0 lists every LED's write with its outcome. */
  lemma SpanAll(c: Color, env: Env)
    ensures Span(0, LedCount, c, env) == seq(LedCount, (j: nat) => Write(j, c, env.write(j)))
  {
    forall j | 0 <= j < LedCount
      ensures Span(0, LedCount, c, env)[j] == Write(j, c, env.write(j))
    {
      SpanAt(0, LedCount, c, env, j);
    }
  }

  lemma AllLitFrom(w: seq<Effect>, c: Color, env: Env)
    requires Healthy(env)
    requires |w| == LedCount && WritesFrom(w, 0, c, env)
    ensures w == seq(LedCount, (j: nat) => Write(j, c, Ok))
  {
    SpanAll(c, env);
  }

  /** A status other than `Paused` on a healthy device lights all eight
      LEDs with that status's colour. */
  lemma StatusLightsAll(p: Plugin, s: Status, token: Token, env: Env)
    requires s != Paused && Healthy(env)
    ensures AllLit(SetStatus(p, s, token, env).effects, StatusColor(p.cfg, s).value)
  {
    var c := StatusColor(p.cfg, s).value;
    SetColorAllWritten(p.(flash := None), c, env);
    SetStatusWrites(p, s, token, env);
    AllLitFrom(Writes(SetStatus(p, s, token, env).effects), c, env);
  }

  /** Previewing with no recording scheduled lights all LEDs "#000000";
      recording lights them "#ff0000". */
  lemma PreviewAndRecording(p: Plugin, token: Token, env: Env, lookahead: int)
    requires p.cfg == DefaultConfig(lookahead) && p.flash == None && Healthy(env)
    ensures AllLit(HandleTimer(p, Preview, None, 0, token, env).effects, "#000000")
    ensures AllLit(HandleStatusChange(p, Recording, token, env).effects, "#ff0000")
  {
    StatusLightsAll(p, Preview, token, env);
    StatusLightsAll(p, Recording, token, env);
  }

  /** With default colours, a recorder error lights all eight LEDs in the
      error colour. */
  lemma ErrorLightsAll(p: Plugin, token: Token, env: Env, lookahead: int)
    requires p.cfg == DefaultConfig(lookahead) && Healthy(env)
    ensures AllLit(HandleStatusChange(p, Error, token, env).effects, "#aa00aa")
  {
    StatusLightsAll(p, Error, token, env);
  }

  /** A plugin started while the recorder initialises or previews, with no
      recording due, turns all LEDs off ("#000000", the preview colour). */
  lemma StartsDark(lookahead: int, s: Status, token: Token, env: Env)
    requires s == Init || s == Preview
    requires Healthy(env)
    ensures AllLit(Create(DefaultConfig(lookahead), s, None, 0, token, env).effects, "#000000")
  {
    StatusLightsAll(Initial(DefaultConfig(lookahead)), s, token, env);
  }

  /** Previewing with a recording 30 s away and a 60 s lookahead lights all
      LEDs in the upcoming colour "#ffff00". */
  lemma UpcomingWithinWindow(p: Plugin, token: Token, env: Env, now: int)
    requires p.cfg == DefaultConfig(60) && p.flash == None && Healthy(env)
    ensures AllLit(HandleTimer(p, Preview, Some(now + 30), now, token, env).effects, "#ffff00")
  {
    StatusLightsAll(p, Upcoming, token, env);
  }

  /** Pausing after recording schedules a 1000 ms flash timer and writes
      nothing; its first firing shows "#000000" (the preview colour, since
      the pause colour "#ff0000" is already showing), the second "#ff0000",
      and both ask to be called again. */
  lemma PauseFlashes(p: Plugin, token: Token, env: Env, lookahead: int)
    requires p.cfg == DefaultConfig(lookahead) && p.flash == None && p.led == "#ff0000"
    requires Healthy(env)
    ensures var st := HandleStatusChange(p, Paused, token, env);
      && st.effects == [ScheduleTimer(token, 1000)]
      && var f1 := Fire(st.plugin, env);
      && AllLit(f1.step.effects, "#000000") && f1.ret == Some(token)
      && var f2 := Fire(f1.step.plugin, env);
      && AllLit(f2.step.effects, "#ff0000") && f2.ret == Some(token)
  {
    var st := HandleStatusChange(p, Paused, token, env);
    var f1 := Fire(st.plugin, env);
    SetColorAllWritten(st.plugin, "#ff0000", env);
    AllLitFrom(Writes(f1.step.effects), "#000000", env);
    SetColorAllWritten(f1.step.plugin, "#ff0000", env);
    AllLitFrom(Writes(Fire(f1.step.plugin, env).step.effects), "#ff0000", env);
  }

  /** Quitting while flashing with the pause colour showing writes the off
      colour "#000000" but leaves the flash live and its timer scheduled. */
  lemma QuitWhileFlashing(p: Plugin, token: Token, env: Env, lookahead: int)
    requires p.cfg == DefaultConfig(lookahead) && p.flash == Some(token) && p.led == "#ff0000"
    requires Healthy(env)
    ensures var st := HandleQuit(p, env);
      && AllLit(st.effects, "#000000")
      && st.plugin.flash == Some(token)
      && NoTimerOps(st.effects)
  {
    SetColorAllWritten(p, "#000000", env);
    AllLitFrom(Writes(HandleQuit(p, env).effects), "#000000", env);
  }

  /** A USB error on LED 3 is not retried: LED 3 is written once, and the
      loop goes on with LED 4. */
  lemma UsbErrorSkipsLed(p: Plugin, env: Env)
    requires p.bs == Present
    requires forall j :: env.write(j) == (if j == 3 then UsbError else Ok)
    ensures var st := SetStatus(p, Recording, 1, env);
      Writes(st.effects) == seq(LedCount, (j: nat) => Write(j, p.cfg.recColor, if j == 3 then UsbError else Ok))
  {
    var c := p.cfg.recColor;
    var w := Writes(SetStatus(p, Recording, 1, env).effects);
    SetColorAllWritten(p.(flash := None), c, env);
    SetStatusWrites(p, Recording, 1, env);
    SpanAll(c, env);
    assert w == seq(LedCount, (j: nat) => Write(j, c, env.write(j)));
  }
}

=== FILE: scheduler.dfy ===
/** The plugin together with GLib's view of its timers: the set of timeout
    sources still scheduled, and the event loop delivering one event at a
    time. A source stays scheduled until it is removed or its callback
    returns a falsy value.
 */
module Scheduler {
  import opened Types
  import opened Trace
  import opened Device
  import opened Controller

  /** The plugin, the ids of the GLib sources still scheduled, and an id
      larger than every id handed out so far. */
  datatype System = System(plugin: Plugin, timers: set<Token>, nextId: Token)

  /** One callback run by the event loop, with the hardware's behaviour
      during it. `TimerFires` runs a scheduled flash source's callback. */
  datatype Event =
    | Tick(recorder: Status, next: Option<int>, now: int, env: Env)
    | StatusChange(status: Status, env: Env)
    | UpcomingNotice(env: Env)
    | Quit(env: Env)
    | TimerFires(token: Token, env: Env)

  /** GLib's scheduled sources after the timer effects of `fx`. */
  function ApplyTimerOps(timers: set<Token>, fx: seq<Effect>): (r: set<Token>)
    ensures NoTimerOps(fx) ==> r == timers
    decreases |fx|
  {
    if fx == [] then timers
    else
      var t := match fx[0]
        case ScheduleTimer(id, _) => timers + {id}
        case RemoveTimer(id) => timers - {id}
        case _ => timers;
      ApplyTimerOps(t, fx[1..])
  }

  /** Record a handler's step: the new plugin, the timers it scheduled or
      removed, and a fresh id for the next schedule. */
  function Commit(sys: System, st: Step): System {
    System(st.plugin, ApplyTimerOps(sys.timers, st.effects), sys.nextId + 1)
  }

  /** The system after one event. A source that is no longer scheduled is
      never run; one whose callback returns `None` is dropped. */
  function Next(sys: System, ev: Event): System {
    match ev
    case Tick(recorder, next, now, env) =>
      Commit(sys, HandleTimer(sys.plugin, recorder, next, now, sys.nextId, env))
    case StatusChange(s, env) => Commit(sys, HandleStatusChange(sys.plugin, s, sys.nextId, env))
    case UpcomingNotice(env) => Commit(sys, HandleUpcoming(sys.plugin, sys.nextId, env))
    case Quit(env) => Commit(sys, HandleQuit(sys.plugin, env))
    case TimerFires(t, env) =>
      if t !in sys.timers then sys
      else
        var a := Fire(sys.plugin, env);
        var after := Commit(sys, a.step);
        if a.ret.None? then after.(timers := after.timers - {t}) else after
  }

  /** The timer ids the plugin itself considers live. */
  function FlashSet(flash: Option<Token>): set<Token> {
    if flash.Some? then {flash.value} else {}
  }

  /** GLib schedules exactly the plugin's flash timer, so at most one timer
      runs; ids still to be handed out are fresh. */
  predicate Agree(sys: System) {
    && sys.timers == FlashSet(sys.plugin.flash)
    && forall t :: t in sys.timers ==> t < sys.nextId
  }

  /** The system right after construction. */
  function Start(cfg: Config, recorder: Status, next: Option<int>, now: int, env: Env): (sys: System)
    ensures Agree(sys)
    ensures |sys.timers| == (if recorder == Paused then 1 else 0)
  {
    var st := Create(cfg, recorder, next, now, 1, env);
    var p0 := Initial(cfg);
    assert recorder != Paused ==> st == SetStatus(p0, ResolveStatus(cfg, recorder, next, now), 1, env);
    assert recorder == Paused ==> ApplyTimerOps({}, st.effects) == {1} by {
      if recorder == Paused {
        assert st.effects == [ScheduleTimer(1, cfg.pauseDelay)];
        assert st.effects[1..] == [];
      }
    }
    System(st.plugin, ApplyTimerOps({}, st.effects), 2)
  }

  /** The timers after a `set_status` step match the plugin's flash. */
  lemma SetStatusAgrees(sys: System, s: Status, env: Env)
    requires Agree(sys)
    ensures Agree(Commit(sys, SetStatus(sys.plugin, s, sys.nextId, env)))
  {
    var p := sys.plugin;
    var st := SetStatus(p, s, sys.nextId, env);
    if StartsFlash(p, s) {
      assert st.effects[1..] == [];
    } else if p.flash.Some? {
      assert st.effects == [st.effects[0]] + st.effects[1..];
      assert ApplyTimerOps(sys.timers, st.effects) == ApplyTimerOps(sys.timers - {p.flash.value}, st.effects[1..]);
    }
  }

  /** A flash source's firing keeps the timers and the flash in agreement:
      the callback either keeps the flash and is called again, or finds no
      device, clears the flash and is dropped. */
  lemma FireAgrees(sys: System, t: Token, env: Env)
    requires Agree(sys)
    ensures Agree(Next(sys, TimerFires(t, env)))
  {
    if t in sys.timers {
      var a := Fire(sys.plugin, env);
      SetColorNoTimerOps(sys.plugin, sys.plugin.cfg.pauseColor, env);
      assert ApplyTimerOps(sys.timers, a.step.effects) == sys.timers;
    }
  }

  /** Quitting with a device at hand keeps the flash and its timer. */
  lemma QuitAgrees(sys: System, env: Env)
    requires Agree(sys)
    requires Reachable(sys.plugin, env)
    ensures Agree(Next(sys, Quit(env)))
  {
    var st := HandleQuit(sys.plugin, env);
    assert ApplyTimerOps(sys.timers, st.effects) == sys.timers;
  }

  /** Agreement means at most one scheduled flash timer. */
  lemma AgreeSingle(sys: System)
    requires Agree(sys)
    ensures |sys.timers| <= 1
  {
  }

  /** Every event but quitting keeps GLib's timers and the plugin's flash
      in agreement; quitting does too while a device can be reached. So
      there is never more than one flash timer, and a flash cancelled by
      the plugin is never run again. */
  lemma {:induction false} NextAgrees(sys: System, ev: Event)
    requires Agree(sys)
    requires ev.Quit? ==> Reachable(sys.plugin, ev.env)
    ensures Agree(Next(sys, ev))
    ensures |Next(sys, ev).timers| <= 1
  {
    var p := sys.plugin;
    match ev {
      case Tick(recorder, next, now, env) =>
        if p.flash.None? {
          SetStatusAgrees(sys, ResolveStatus(p.cfg, recorder, next, now), env);
        }
      case StatusChange(s, env) =>
        SetStatusAgrees(sys, s, env);
      case UpcomingNotice(env) =>
        SetStatusAgrees(sys, Upcoming, env);
      case Quit(env) =>
        QuitAgrees(sys, env);
      case TimerFires(t, env) =>
        FireAgrees(sys, t, env);
    }
    AgreeSingle(Next(sys, ev));
  }

  /** Quitting with no device to be found while flashing leaves the flash
      timer scheduled but forgotten by the plugin, and the next resync while
      the recorder is still paused schedules a second one. */
  lemma QuitOrphansTimer(cfg: Config, absent: Env, present: Env)
    requires forall k :: absent.find(k) == NotFound
    requires forall k :: present.find(k) == Found
    ensures var s0 := System(Plugin(cfg, Absent, false, Some(1), cfg.pauseColor), {1}, 2);
      && Agree(s0)
      && var s1 := Next(s0, Quit(absent));
      && s1.plugin.flash == None && s1.timers == {1}
      && var s2 := Next(s1, Tick(Paused, None, 0, present));
      && s2.timers == {1, 3} && s2.plugin.flash == Some(3)
  {
    var s0 := System(Plugin(cfg, Absent, false, Some(1), cfg.pauseColor), {1}, 2);
    var s1 := Next(s0, Quit(absent));
    assert HandleQuit(s0.plugin, absent).effects == [];
    var st := HandleTimer(s1.plugin, Paused, None, 0, 3, present);
    assert st.effects == [ScheduleTimer(3, cfg.pauseDelay)];
    assert st.effects[1..] == [];
  }

  /** A timer that the plugin no longer knows keeps running as long as the
      plugin flashes under another timer: its callback reads the plugin's
      current flash and asks to be called again. */
  lemma OrphanKeepsRunning(sys: System, orphan: Token, env: Env)
    requires orphan in sys.timers
    requires sys.plugin.flash.Some? && sys.plugin.flash.value != orphan
    requires Reachable(sys.plugin, env)
    ensures orphan in Next(sys, TimerFires(orphan, env)).timers
    ensures !Agree(sys)
  {
    SetColorNoTimerOps(sys.plugin, sys.plugin.cfg.pauseColor, env);
  }

  /** The system after a run of events, in order. */
  function Run(sys: System, evs: seq<Event>): System
    decreases |evs|
  {
    if evs == [] then sys else Run(Next(sys, evs[0]), evs[1..])
  }

  /** No quit happens with the device out of reach. */
  predicate QuitsReachDevice(sys: System, evs: seq<Event>)
    decreases |evs|
  {
    evs == [] ||
    ((evs[0].Quit? ==> Reachable(sys.plugin, evs[0].env)) && QuitsReachDevice(Next(sys, evs[0]), evs[1..]))
  }

  /** From construction on, as long as no quit meets an unreachable device,
      GLib runs exactly the plugin's flash timer and never a second one. */
  lemma {:induction false} RunAgrees(sys: System, evs: seq<Event>)
    requires Agree(sys)
    requires QuitsReachDevice(sys, evs)
    ensures Agree(Run(sys, evs))
    ensures |Run(sys, evs).timers| <= 1
    decreases |evs|
  {
    if evs == [] {
      AgreeSingle(sys);
    } else {
      NextAgrees(sys, evs[0]);
      RunAgrees(Next(sys, evs[0]), evs[1..]);
    }
  }
}

=== FILE: trace.dfy ===
/** Views of an effect trace: the LED writes in it, how many error logs it
    holds, how many writes succeeded, and whether it touches the timers.
 */
module Trace {
  import opened Types

  /** The `Write` effects of `fx`, in order. */
  function Writes(fx: seq<Effect>): (w: seq<Effect>)
    ensures |w| <= |fx|
  {
    if fx == [] then []
    else (if fx[0].Write? then [fx[0]] else []) + Writes(fx[1..])
  }

  /** Number of `ErrorLogged` effects in `fx`. */
  function ErrorLogs(fx: seq<Effect>): (n: nat)
    ensures n <= |fx|
  {
    if fx == [] then 0
    else (if fx[0] == ErrorLogged then 1 else 0) + ErrorLogs(fx[1..])
  }

  /** Number of successful LED writes in `fx`. */
  function OkWrites(fx: seq<Effect>): (n: nat)
    ensures n <= |fx|
  {
    if fx == [] then 0
    else (if fx[0].Write? && fx[0].outcome == Ok then 1 else 0) + OkWrites(fx[1..])
  }

  /** `fx` neither schedules nor removes a timer. */
  predicate NoTimerOps(fx: seq<Effect>) {
    forall j :: 0 <= j < |fx| ==> !fx[j].ScheduleTimer? && !fx[j].RemoveTimer?
  }

  lemma NoTimerOpsAppend(a: seq<Effect>, b: seq<Effect>)
    requires NoTimerOps(a) && NoTimerOps(b)
    ensures NoTimerOps(a + b)
  {
    forall j | 0 <= j < |a + b|
      ensures !(a + b)[j].ScheduleTimer? && !(a + b)[j].RemoveTimer?
    {
      if j >= |a| {
        assert (a + b)[j] == b[j - |a|];
      }
    }
  }

  lemma {:induction false} WritesAppend(a: seq<Effect>, b: seq<Effect>)
    ensures Writes(a + b) == Writes(a) + Writes(b)
  {
    if a == [] {
      assert a + b == b;
    } else {
      assert (a + b)[0] == a[0];
      assert (a + b)[1..] == a[1..] + b;
      WritesAppend(a[1..], b);
    }
  }

  lemma {:induction false} ErrorLogsAppend(a: seq<Effect>, b: seq<Effect>)
    ensures ErrorLogs(a + b) == ErrorLogs(a) + ErrorLogs(b)
  {
    if a == [] {
      assert a + b == b;
    } else {
      assert (a + b)[0] == a[0];
      assert (a + b)[1..] == a[1..] + b;
      ErrorLogsAppend(a[1..], b);
    }
  }

  lemma {:induction false} OkWritesAppend(a: seq<Effect>, b: seq<Effect>)
    ensures OkWrites(a + b) == OkWrites(a) + OkWrites(b)
  {
    if a == [] {
      assert a + b == b;
    } else {
      assert (a + b)[0] == a[0];
      assert (a + b)[1..] == a[1..] + b;
      OkWritesAppend(a[1..], b);
    }
  }

  /** Where a trace stands with respect to the log-once rule: the error
      flag is down, it is up, or a fault was just seen with the flag down
      and its error log must come next. */
  datatype LogState = FlagDown | FlagUp | LogDue

  /** The state an error flag stands for. */
  function FlagState(error: bool): LogState {
    if error then FlagUp else FlagDown
  }

  /** One effect against the log-once rule, or `None` when it breaks it: a
      successful write lowers the flag, a USB error leaves it, any other
      fault raises it and, if it was down, is owed exactly one log. */
  function ReplayStep(e: Effect, s: LogState): Option<LogState> {
    match s
    case LogDue => if e == ErrorLogged then Some(FlagUp) else None
    case _ =>
      match e
      case Write(_, _, outcome) =>
        (match outcome
         case Ok => Some(FlagDown)
         case UsbError => Some(s)
         case Other => Some(if s == FlagDown then LogDue else FlagUp))
      case ErrorLogged => None
      case _ => Some(s)
  }

  /** A whole trace against the log-once rule, from state `s`. */
  function Replay(fx: seq<Effect>, s: LogState): Option<LogState>
    decreases |fx|
  {
    if fx == [] then Some(s)
    else
      match ReplayStep(fx[0], s)
      case None => None
      case Some(t) => Replay(fx[1..], t)
  }

  /** Replaying two traces one after the other. */
  lemma {:induction false} ReplayAppend(a: seq<Effect>, b: seq<Effect>, s: LogState)
    ensures Replay(a + b, s) == (match Replay(a, s) case None => None case Some(t) => Replay(b, t))
    decreases |a|
  {
    if a == [] {
      assert a + b == b;
    } else {
      assert (a + b)[0] == a[0];
      assert (a + b)[1..] == a[1..] + b;
      match ReplayStep(a[0], s)
      case None =>
      case Some(t) => ReplayAppend(a[1..], b, t);
    }
  }

  /** The views of a one-effect trace. */
  lemma Single(e: Effect)
    ensures Writes([e]) == (if e.Write? then [e] else [])
    ensures ErrorLogs([e]) == (if e == ErrorLogged then 1 else 0)
    ensures OkWrites([e]) == (if e.Write? && e.outcome == Ok then 1 else 0)
    ensures forall s :: Replay([e], s) == ReplayStep(e, s)
  {
    assert [e][1..] == [];
  }
}

=== FILE: types.dfy ===
/** Values shared by the status-to-light controller of the Galicaster
    Blinkstick plugin: recorder statuses, colours, the plugin's
    configuration and mutable fields, the device outcomes the environment
    supplies, and the trace of external effects each handler produces.
 */
module Types {

  datatype Option<+T> = None | Some(value: T)

  /** A colour as the plugin passes it to the device: a hex string such as "#ff0000". */
  type Color = string

  /** Number of LEDs on a Blinkstick Square. */
  const LedCount: nat := 8

  const DefaultPreviewColor: Color := "#000000"
  const DefaultRecColor: Color := "#ff0000"
  const DefaultPauseColor: Color := "#ff0000"
  const DefaultPauseDelay: nat := 1000
  const DefaultUpcomingColor: Color := "#ffff00"
  const DefaultErrorColor: Color := "#aa00aa"
  const OffColor: Color := "#000000"

  /** Recorder statuses the plugin reacts to. `Upcoming` is the plugin's own
      synthetic status: previewing, and a recording starts soon. */
  datatype Status = Init | Preview | Recording | Paused | Error | Upcoming

  /** The constructor arguments of the plugin; never changed afterwards.
      `pauseDelay` is in milliseconds, `upcomingTime` in seconds. */
  datatype Config = Config(
    previewColor: Color,
    recColor: Color,
    pauseColor: Color,
    pauseDelay: nat,
    upcomingColor: Color,
    upcomingTime: int,
    errorColor: Color,
    offColor: Color)

  /** The configuration the plugin gets when no option is set, with the
      host's lookahead constant supplied by the caller. */
  function DefaultConfig(upcomingTime: int): Config {
    Config(DefaultPreviewColor, DefaultRecColor, DefaultPauseColor, DefaultPauseDelay,
           DefaultUpcomingColor, upcomingTime, DefaultErrorColor, OffColor)
  }

  /** Identifier of a GLib timeout source. GLib never hands out 0, so a
      token is always truthy and "flash is truthy" means "flash is Some". */
  type Token = t: nat | 0 < t witness 1

  /** The plugin's reference to a Blinkstick: held or not. */
  datatype Handle = Absent | Present

  /** What one `bs.set_color(index=i, hex=…)` call does: succeed, raise a
      `usb.core.USBError`, or raise any other exception. */
  datatype WriteOutcome = Ok | UsbError | Other

  /** What one device acquisition meets: `find_first` returns a device,
      returns nothing, or raises; in the last case the USB link for the
      Blinkstick's vendor/product id is looked up and reset when found. */
  datatype FindOutcome = Found | NotFound | FindFailed(linkFound: bool)

  /** The hardware, as seen by one handler invocation: `write(i)` is the
      outcome of writing LED `i`, `find(k)` the outcome of the k-th device
      acquisition attempted during that invocation (counting from 0). */
  datatype Env = Env(write: nat -> WriteOutcome, find: nat -> FindOutcome)

  /** Observable effects of the controller, in the order they happen. */
  datatype Effect =
    | Write(index: nat, color: Color, outcome: WriteOutcome)  // one attempted LED write
    | ErrorLogged                                             // `logger.error` for a device fault
    | LinkReset                                               // `dev.reset()` on the USB link
    | ScheduleTimer(token: Token, delay: nat)                 // `GLib.timeout_add`
    | RemoveTimer(token: Token)                               // `GLib.source_remove`

  /** The plugin object's mutable fields, with its configuration. */
  datatype Plugin = Plugin(
    cfg: Config,
    bs: Handle,            // device reference, `None` when `Absent`
    error: bool,           // a non-USB fault happened since the last successful write
    flash: Option<Token>,  // live flash timer, if any
    led: Color)            // colour last sent; never read back from the device

  /** The plugin as the constructor leaves it, before its first timer call. */
  function Initial(cfg: Config): Plugin
  {
    Plugin(cfg, Absent, false, None, cfg.previewColor)
  }

  /** Result of a handler: the plugin afterwards and the effects produced. */
  datatype Step = Step(plugin: Plugin, effects: seq<Effect>)

  /** Result of `set_color`: a step plus the value it returns, which GLib
      reads as "call me again" when it is truthy. */
  datatype Applied = Applied(step: Step, ret: Option<Token>)
}
